=== FILE: README.md ===
# WARP version checker — a Dafny model

`check_warp_version.py` watches the Cloudflare WARP package in the vendor's
Debian repository. Each run fetches the repository's `Packages` index. It
takes the first `SHA256:` digest and the first `Version:` token from the
index, and compares the digest with the one saved in the version file
`.warp_version`. On a new digest, or when there is no usable saved record,
it rewrites the file as `version:sha256`, prints that line and exits 0.
Otherwise it exits 1. An exception that escapes gives exit 3.

The model has five modules:

- `Wrappers` (`wrappers.dfy`): the `Option` type, standing for Python's `None`.
- `Text` (`text.dfy`): Python's whitespace (what `str.isspace()` accepts), `str.strip()` and the first-colon split of `split(":", 1)`.
- `PackageIndex` (`package_index.dfy`): the record `PackageInfo(version, sha256)` and the parser `_parse_package_info`.
  - The two regular expressions `SHA256:\s*([a-f0-9]{64})` and `Version:\s*(\S+)` are hand-coded as greedy scans (`SkipSpace`, `TokenEnd`) and leftmost searches (`FindSha`, `FindVersion`).
  - Each scan is proved equal to a reference reading of its pattern (`ShaRegexMatch`, `VersionRegexMatch`). That proof also shows the captured group is unique.
  - The pattern's `\s*` also matches when no whitespace follows `SHA256:` or `Version:`, and so does the model.
  - The index follows the Debian control-file format (Debian Policy Manual, chapter 5). The search ignores lines and stanzas, exactly as `re.search` does.
- `VersionStore` (`version_store.dfy`): the file format.
  - `Serialize` is `save_info`'s `f"{version}:{sha256}"`.
  - `Load` is `load_saved_info` applied to the file's content.
- `Checker` (`version_checker.dfy`): the update check and the exit status.
  - The class `VersionChecker` has one field, `stored`: the version file's content, or `None` when the file does not exist.
  - `SaveInfo` and `CheckForUpdate` update that field step by step, as the source does.
  - Both are proved against the pure function `Check`, which gives what one run reports and what the file holds after it.
  - `Exit` is `main`'s mapping to exit codes and standard output. `RunMain` is one whole run.
- `Scenarios` (`scenarios.dfy`): the check on a typical stanza `Version: v` / `SHA256: h`. It covers the first run, an unchanged digest, a changed digest and a failed fetch.

The world outside the program enters as parameters:

- `body: Option<string>`: the fetched index text. It is `None` for any transport failure, including a body that is not valid UTF-8.
- `readable`: whether an existing version file can be read.
- `writable`: whether the write succeeds.

The round trip through the version file holds only under a condition. A
record survives `Serialize` then `Load` only when its version holds no colon
and neither field has surrounding whitespace. A parsed record always meets the
whitespace condition. A Debian version with an epoch (`1:2.3-1`) breaks the
colon condition. `EpochSplitsVersion` and `EpochBreaksRoundTrip` show what is loaded back in that case.
`EpochVersionReannounced` shows the result: every later run against the same
index reports the same update again.

## Model

| member | source | states |
|---|---|---|
| `Text.StripUnique` | check_warp_version.py:67 | `strip()` returns exactly the whitespace-free core that lies between two whitespace-only margins |
| `Text.Strip` | check_warp_version.py:57-58 | `str.strip()`: the result has no surrounding whitespace, is no longer than the input, and is empty exactly when the input is all whitespace; `StripUnique` pins it down completely |
| `Text.IndexOf` | check_warp_version.py:72 | the split point of `split(":", 1)` is the first colon: a colon sits there and none comes before it |
| `PackageIndex.ShaScanIsRegex` | check_warp_version.py:50 | the greedy scan matches `SHA256:\s*([a-f0-9]{64})` at a position exactly when the pattern does; the group starts at a unique place, so backtracking into `\s*` never yields another group; zero whitespace is allowed; there is no end anchor |
| `PackageIndex.VersionScanIsRegex` | check_warp_version.py:51 | the greedy scan matches `Version:\s*(\S+)` exactly when the pattern does; the group is the unique maximal non-whitespace token after the label's whitespace |
| `PackageIndex.FindSha` | check_warp_version.py:50 | `re.search` finds the leftmost position where the digest pattern matches; a label followed by a bad token is passed over; there is no result only when nothing matches |
| `PackageIndex.FindVersion` | check_warp_version.py:51 | the leftmost position where the version pattern matches, or no result exactly when nothing matches |
| `PackageIndex.SearchSha` | check_warp_version.py:50 | the digest group is absent exactly when there is no match; when present it is 64 lower-case hex characters |
| `PackageIndex.SearchVersion` | check_warp_version.py:51 | the version group is absent exactly when there is no match; when present it is non-empty and free of whitespace |
| `PackageIndex.Parse` | check_warp_version.py:49-59 | parsing fails exactly when the text has no digest match, whatever it says about the version; a parsed digest is 64 lower-case hex characters; a parsed version is non-empty and free of whitespace |
| `PackageIndex.ParseTakesLeftmostSha` | check_warp_version.py:50-58 | the parsed digest is the group of the leftmost digest match, wherever that stands in the text; `strip()` leaves it unchanged |
| `PackageIndex.ParseDefaultsVersion` | check_warp_version.py:57 | with no version match anywhere, the parsed version is `"unknown"` |
| `PackageIndex.ParseTakesLeftmostVersion` | check_warp_version.py:51-57 | otherwise the parsed version is the token of the leftmost version match; `strip()` leaves it unchanged |
| `VersionStore.Serialize` | check_warp_version.py:82 | the written content is the version, one colon and the digest, with no newline; when the version holds no colon, the written colon is the content's first colon, so `split(":", 1)` cuts exactly where `save_info` joined |
| `VersionStore.Load` | check_warp_version.py:61-73 | no record for a missing file or for a stripped content with no colon; otherwise both fields are stripped, and the version never contains a colon |
| `VersionStore.LoadSplitsAt` | check_warp_version.py:69-73 | a stripped content whose first colon is at k loads as the stripped text before k and the stripped text after k |
| `VersionStore.RoundTrip` | check_warp_version.py:69-82 | saving a record and loading it back gives the same record, when the version has no colon and neither field has surrounding whitespace |
| `VersionStore.EpochSplitsVersion` | check_warp_version.py:72-82 | with a colon in the version, the loaded version is the stripped part before the version's first colon, and the rest of the version moves in front of the digest |
| `VersionStore.EpochFields` | check_warp_version.py:72-82 | the fields loaded from a record whose version holds a colon: the version is shorter than the saved one; the digest contains a colon, so it is no hex digest, and it differs from a saved hex digest |
| `VersionStore.EpochBreaksRoundTrip` | check_warp_version.py:72-82 | with a colon in the version the saved record is not recovered: something is loaded, but not the record; the loaded digest contains a colon, so it is no hex digest, and it differs from the saved digest when that is hex |
| `VersionStore.LoadIgnoresMargins` | check_warp_version.py:67 | whitespace around the file's content, such as a final newline, does not change what is loaded |
| `Checker.FetchLatest` | check_warp_version.py:32-46 | a failed request yields no record; a fetched index yields none exactly when it has no digest match; a record's digest is 64 lower-case hex characters and its version a non-empty whitespace-free token |
| `Checker.LoadSaved` | check_warp_version.py:61-77 | no record when the file does not exist or cannot be read; otherwise no record exactly when the stripped content has no colon; a record's fields are stripped and its version holds no colon |
| `Checker.Check` | check_warp_version.py:89-104 | an update is reported exactly when the index yields a record and there is no loadable saved record or the saved digest differs; versions are never compared; the report is the fetched record; the file changes only on an update whose write succeeds, and then holds exactly `version:sha256` |
| `Checker.VersionChecker.constructor` | check_warp_version.py:29-30 | the checker starts on the given version file |
| `Checker.VersionChecker.SaveInfo` | check_warp_version.py:79-87 | returns whether the write succeeded; on success the whole file is `version:sha256`; on failure the file is unchanged |
| `Checker.VersionChecker.CheckForUpdate` | check_warp_version.py:89-104 | the step-by-step check yields the update and new file that `Check` gives; a failed fetch, and every other no-update path, leaves the file untouched |
| `Checker.Exit` | check_warp_version.py:107-120 | exit 0 exactly for a returned update, and then stdout is the line `version:sha256`; exit 1 with no output exactly for no update; exit 3 exactly for an escaped exception |
| `Checker.RunMain` | check_warp_version.py:107-116 | one run's exit status and resulting file are those of `Check`; the modelled check never exits 3 |
| `Checker.ParsedRecordRoundTrip` | check_warp_version.py:56-82 | a record parsed from an index with a colon-free version is recovered unchanged from the version file |
| `Checker.SecondCheckIsQuiet` | check_warp_version.py:89-104 | once a check has reported and saved an update, the next check against the same index reports nothing and leaves the file alone (version without a colon) |
| `Checker.EpochVersionReannounced` | check_warp_version.py:94-102 | with a colon in the version, the check after a saved update reports the same update again and rewrites the same file |
| `Checker.SameDigestIsNoUpdate` | check_warp_version.py:100-104 | for a saved version without a colon or surrounding whitespace, a saved record with the fetched digest gives no update and no write, even when the versions differ (a saved version with a colon breaks this: see `EpochVersionReannounced`) |
| `Checker.NewDigestIsUpdate` | check_warp_version.py:100-102 | for a saved record whose version has no colon and whose fields have no surrounding whitespace, a saved record with another digest gives the fetched record as the update, and the file is overwritten with it when the write succeeds |
| `Checker.ReportIgnoresSaveOutcome` | check_warp_version.py:96-102 | whether the save succeeds never changes what the check reports |
| `Checker.StdoutIsSavedLine` | check_warp_version.py:82-113 | when an update is reported and saved, the printed line is the new content of the version file followed by a newline |
| `Scenarios.StanzaDigest` | check_warp_version.py:50 | in the stanza, for a non-empty whitespace-free version v without `S` and a 64-digit lower-case hex h, no digest match starts before the `SHA256:` field, that field matches, and its group is h |
| `Scenarios.StanzaVersion` | check_warp_version.py:51 | in the stanza, for a non-empty whitespace-free version v without `S`, the `Version:` field is the leftmost version match and its group is v |
| `Scenarios.ParseStanza` | check_warp_version.py:50-58 | for a non-empty whitespace-free version v without `S` and a 64-digit lower-case hex h, the stanza `Version: v` / `SHA256: h` parses to the record (v, h) |
| `Scenarios.VersionAloneIsNoRecord` | check_warp_version.py:53-54 | an index holding only `Version: v`, for a non-empty whitespace-free v without `S`, yields no record (a v holding `SHA256:` and a digest would yield one, since the search ignores fields) |
| `Scenarios.FirstRun` | check_warp_version.py:96-114 | for a non-empty whitespace-free v without `S` and a 64-digit lower-case hex h, with no version file, the stanza's record is reported and saved as `v:h`, and the run exits 0 printing that line |
| `Scenarios.UnchangedDigest` | check_warp_version.py:100-116 | for a non-empty whitespace-free v without `S`, a 64-digit lower-case hex h, and a saved version `old` that is non-empty, whitespace-free and without `S` or a colon, a file `old:h` and a stanza with a new version but the same digest give no update, exit 1 and an untouched file |
| `Scenarios.ChangedDigest` | check_warp_version.py:100-114 | for a non-empty whitespace-free v without `S`, 64-digit lower-case hex digests g and h, and a saved version `old` that is non-empty, whitespace-free and without `S` or a colon, a file `old:g` and a stanza with digest h different from g give the new record, the file `v:h`, and exit 0 |
| `Scenarios.FetchFailure` | check_warp_version.py:90-92 | a failed fetch gives no update, exit 1 and an untouched file |

## Left out

- The HTTP request of `fetch_latest_package_info` (check_warp_version.py:32-46) is not modelled: the URL, the `User-Agent` header, the 30-second timeout, reading the response and decoding it as UTF-8. The model receives its outcome as `body`, with `None` for every failure the source absorbs.
- File-system calls are not modelled. `os.path.exists` becomes `stored.Some?`. The model receives read errors as `readable` and write errors as `writable`. The path `.warp_version` is not modelled.
- `Checker.VersionChecker.SaveInfo`: a failed write leaves the file unchanged in the model. In the source, `open(..., "w")` may already have truncated the file before the write fails.
- Diagnostics on standard error and the process termination of `sys.exit` are not modelled. Exit 3 is reachable only through the abstract outcome `Crashed`. No path of the modelled check raises. A failure writing the line to standard output (check_warp_version.py:113, inside the `try`, for example a closed pipe or a character the stream cannot encode) is not modelled: the source then exits 3 after the version file has already been rewritten, while `RunMain` promises exit 0 or 1.
- Whitespace is the fixed list in `Text.IsSpace`: the characters `str.isspace()` accepts under current Unicode versions, including the ASCII separators `\x1c` to `\x1f`. A whitespace character added by a later Unicode version is not modelled.
- `f.read()` in text mode (check_warp_version.py:66-67) turns `\r\n` and a lone `\r` into `\n` before `Load` sees the content; the model loads the content as stored. Both characters are whitespace, so this changes `Load`'s result only for a carriage return inside a field, never the digest comparison of a record `save_info` wrote.
- Text is a sequence of characters. Byte encodings are not modelled.

=== FILE: package_index.dfy ===
/**
 * The parser of the package index: the two pattern searches
 * `SHA256:\s*([a-f0-9]{64})` and `Version:\s*(\S+)` of `_parse_package_info`,
 * hand-coded as scans over the text, and the record they build.
 *
 * The index is a Debian `Packages` file (control-file stanzas of `Key: value`
 * fields, Debian Policy chapter 5), but the search ignores lines and stanzas:
 * it takes the leftmost place in the whole text where a pattern matches.
 */
module PackageIndex {
  import opened Wrappers
  import opened Text

  /** The record the checker passes around: a version token and a content digest. */
  datatype PackageInfo = PackageInfo(version: string, sha256: string)

  const ShaLabel: string := "SHA256:"
  const VersionLabel: string := "Version:"
  const HashLength: nat := 64
  /** The version reported when the index names no version. */
  const Unknown: string := "unknown"

  predicate LabelAt(s: string, i: nat, key: string) {
    i + |key| <= |s| && s[i..i + |key|] == key
  }

  /** The greedy `\S+` starting at `j`: the first whitespace position (or the end) at or after `j`. */
  function TokenEnd(s: string, j: nat): (k: nat)
    requires j <= |s|
    ensures j <= k <= |s| && NoSpace(s[j..k])
    ensures k == |s| || IsSpace(s[k])
    decreases |s| - j
  {
    if j < |s| && !IsSpace(s[j]) then
      var k := TokenEnd(s, j + 1);
      assert s[j..k] == [s[j]] + s[j + 1..k];
      k
    else
      j
  }

  // ---------------------------------------------------------------------------
  // SHA256:\s*([a-f0-9]{64})
  // ---------------------------------------------------------------------------

  /** Where the 64 digits of a hash match at `i` would start. */
  function ShaStart(s: string, i: nat): nat
    requires LabelAt(s, i, ShaLabel)
  {
    SkipSpace(s, i + |ShaLabel|)  // the greedy `\s*`
  }

  /** The pattern matches at `i`: the label, the whitespace run after it, then 64 lower-case hex digits. */
  predicate ShaMatchAt(s: string, i: nat) {
    LabelAt(s, i, ShaLabel) && ShaStart(s, i) + HashLength <= |s|
    && AllLowerHex(s[ShaStart(s, i)..ShaStart(s, i) + HashLength])
  }

  /** The captured group of a match at `i` (no end anchor: digits beyond the 64th are not part of it). */
  function ShaCapture(s: string, i: nat): string
    requires ShaMatchAt(s, i)
  {
    s[ShaStart(s, i)..ShaStart(s, i) + HashLength]
  }

  /**
   * The pattern read as a regular expression: a match at `i` whose group starts
   * at `j` is the label, any whitespace (none included) up to `j`, and 64 digits.
   * This is the reference the greedy scan is proved against.
   */
  ghost predicate ShaRegexMatch(s: string, i: nat, j: nat) {
    LabelAt(s, i, ShaLabel) && i + |ShaLabel| <= j && j + HashLength <= |s|
    && AllSpace(s[i + |ShaLabel|..j]) && AllLowerHex(s[j..j + HashLength])
  }

  /**
   * The greedy scan finds exactly the regular-expression matches, and the
   * group of a match is unique: backtracking into `\s*` never yields another.
   */
  lemma ShaScanIsRegex(s: string, i: nat, j: nat)
    ensures ShaRegexMatch(s, i, j) <==> (ShaMatchAt(s, i) && j == ShaStart(s, i))
  {
    if ShaRegexMatch(s, i, j) {
      var b := i + |ShaLabel|;
      SpaceRunBefore(s, b, j);
      SpaceRunBefore(s, b, ShaStart(s, i));
      assert s[j..j + HashLength][0] == s[j];
    }
  }

  /** Every position of a whitespace slice `s[b..j]` holds whitespace, stated on `s` itself. */
  lemma SpaceRunBefore(s: string, b: nat, j: nat)
    requires b <= j <= |s| && AllSpace(s[b..j])
    ensures forall x :: b <= x < j ==> IsSpace(s[x])
  {
    forall x | b <= x < j ensures IsSpace(s[x]) {
      assert s[b..j][x - b] == s[x];
    }
  }

  /** Every position of a whitespace-free slice `s[j..e]` holds a non-whitespace character. */
  lemma TokenRun(s: string, j: nat, e: nat)
    requires j <= e <= |s| && NoSpace(s[j..e])
    ensures forall x :: j <= x < e ==> !IsSpace(s[x])
  {
    forall x | j <= x < e ensures !IsSpace(s[x]) {
      assert s[j..e][x - j] == s[x];
    }
  }

  /** The hash pattern matches somewhere in `s`. */
  predicate HasShaMatch(s: string) {
    exists i: nat | i < |s| :: ShaMatchAt(s, i)
  }

  predicate IsLeftmostShaMatch(s: string, i: nat) {
    ShaMatchAt(s, i) && forall k: nat :: k < i ==> !ShaMatchAt(s, k)
  }

  /** `re.search` from position `from`: the first position at or after `from` where the pattern matches. */
  function FindSha(s: string, from: nat): (r: Option<nat>)
    ensures r.Some? ==> from <= r.value && ShaMatchAt(s, r.value)
    ensures r.Some? ==> forall k: nat :: from <= k < r.value ==> !ShaMatchAt(s, k)
    ensures r.None? ==> forall k: nat :: from <= k ==> !ShaMatchAt(s, k)
    decreases |s| - from
  {
    if from + |ShaLabel| > |s| then None
    else if ShaMatchAt(s, from) then Some(from)
    else FindSha(s, from + 1)
  }

  // ---------------------------------------------------------------------------
  // Version:\s*(\S+)
  // ---------------------------------------------------------------------------

  /** Where the token of a version match at `i` would start. */
  function VersionStart(s: string, i: nat): nat
    requires LabelAt(s, i, VersionLabel)
  {
    SkipSpace(s, i + |VersionLabel|)
  }

  /** The pattern matches at `i`: the label, the whitespace run after it, then at least one non-whitespace character. */
  predicate VersionMatchAt(s: string, i: nat) {
    LabelAt(s, i, VersionLabel) && VersionStart(s, i) < |s|
  }

  /** The captured group of a match at `i`: the maximal run of non-whitespace after the label. */
  function VersionCapture(s: string, i: nat): (v: string)
    requires VersionMatchAt(s, i)
    ensures v != [] && NoSpace(v) && IsStripped(v)
  {
    s[VersionStart(s, i)..TokenEnd(s, VersionStart(s, i))]
  }

  /**
   * The pattern read as a regular expression with a greedy group: the label,
   * any whitespace up to `j`, and a non-empty run of non-whitespace `s[j..e]`
   * that the greedy `+` cannot extend.
   */
  ghost predicate VersionRegexMatch(s: string, i: nat, j: nat, e: nat) {
    LabelAt(s, i, VersionLabel) && i + |VersionLabel| <= j < e <= |s|
    && AllSpace(s[i + |VersionLabel|..j]) && NoSpace(s[j..e]) && (e == |s| || IsSpace(s[e]))
  }

  /** The greedy scan finds exactly the regular-expression matches, with a unique group. */
  lemma VersionScanIsRegex(s: string, i: nat, j: nat, e: nat)
    ensures VersionRegexMatch(s, i, j, e)
      <==> (VersionMatchAt(s, i) && j == VersionStart(s, i) && e == TokenEnd(s, j))
  {
    if VersionRegexMatch(s, i, j, e) {
      var b := i + |VersionLabel|;
      SpaceRunBefore(s, b, j);
      SpaceRunBefore(s, b, VersionStart(s, i));
      TokenRun(s, j, e);
      assert !IsSpace(s[j]);
      TokenRun(s, j, TokenEnd(s, j));
    }
  }

  /** The version pattern matches somewhere in `s`. */
  predicate HasVersionMatch(s: string) {
    exists i: nat | i < |s| :: VersionMatchAt(s, i)
  }

  predicate IsLeftmostVersionMatch(s: string, i: nat) {
    VersionMatchAt(s, i) && forall k: nat :: k < i ==> !VersionMatchAt(s, k)
  }

  /** `re.search` from position `from` for the version pattern. */
  function FindVersion(s: string, from: nat): (r: Option<nat>)
    ensures r.Some? ==> from <= r.value && VersionMatchAt(s, r.value)
    ensures r.Some? ==> forall k: nat :: from <= k < r.value ==> !VersionMatchAt(s, k)
    ensures r.None? ==> forall k: nat :: from <= k ==> !VersionMatchAt(s, k)
    decreases |s| - from
  {
    if from + |VersionLabel| > |s| then None
    else if VersionMatchAt(s, from) then Some(from)
    else FindVersion(s, from + 1)
  }

  // ---------------------------------------------------------------------------
  // _parse_package_info
  // ---------------------------------------------------------------------------

  /** `re.search` for the hash pattern and its group: the 64 digits of the leftmost match. */
  function SearchSha(content: string): (g: Option<string>)
    ensures g.None? <==> !HasShaMatch(content)
    ensures g.Some? ==> |g.value| == HashLength && AllLowerHex(g.value) && IsStripped(g.value)
  {
    match FindSha(content, 0)
    case None => None
    case Some(i) =>
      var group := ShaCapture(content, i);
      HexIsNotSpace(group);
      Some(group)
  }

  /** `re.search` for the version pattern and its group: the token of the leftmost match. */
  function SearchVersion(content: string): (g: Option<string>)
    ensures g.None? <==> !HasVersionMatch(content)
    ensures g.Some? ==> g.value != [] && NoSpace(g.value) && IsStripped(g.value)
  {
    match FindVersion(content, 0)
    case None => None
    case Some(i) => Some(VersionCapture(content, i))
  }

  /** The default version is a single token: non-empty and free of whitespace. */
  lemma UnknownIsToken()
    ensures Unknown != [] && NoSpace(Unknown) && IsStripped(Unknown)
  {
    forall i | 0 <= i < |Unknown| ensures !IsSpace(Unknown[i]) {
      assert 'a' <= Unknown[i] <= 'z';
    }
  }

  /**
   * Builds the record from the leftmost hash match and the leftmost version
   * match; fails exactly when the text holds no hash match, whatever it says
   * about the version. Both groups are passed through `strip()`, as the
   * program does; the contract shows that this changes nothing.
   */
  function Parse(content: string): (r: Option<PackageInfo>)
    ensures r.None? <==> !HasShaMatch(content)
    ensures r.Some? ==> |r.value.sha256| == HashLength && AllLowerHex(r.value.sha256)
    ensures r.Some? ==> r.value.version != [] && NoSpace(r.value.version)
  {
    var shaMatch := SearchSha(content);
    var versionMatch := SearchVersion(content);
    if shaMatch.None? then
      None
    else
      StripStripped(shaMatch.value);
      if versionMatch.Some? then
        StripStripped(versionMatch.value);
        Some(PackageInfo(Strip(versionMatch.value), Strip(shaMatch.value)))
      else
        UnknownIsToken();
        Some(PackageInfo(Unknown, Strip(shaMatch.value)))
  }

  /** The parsed digest is the group of the leftmost hash match, wherever it stands in the text. */
  lemma ParseTakesLeftmostSha(content: string, i: nat)
    requires IsLeftmostShaMatch(content, i)
    ensures Parse(content).Some? && Parse(content).value.sha256 == ShaCapture(content, i)
  {
    var m := FindSha(content, 0);
    assert m.Some? && m.value == i;
    StripStripped(ShaCapture(content, i));
  }

  /** With no version match anywhere, a successful parse reports the version as "unknown". */
  lemma ParseDefaultsVersion(content: string)
    requires Parse(content).Some?
    requires !HasVersionMatch(content)
    ensures Parse(content).value.version == Unknown
  {
    assert SearchVersion(content).None?;
  }

  /** Otherwise the parsed version is the token after the leftmost `Version:` that is followed by one. */
  lemma ParseTakesLeftmostVersion(content: string, i: nat)
    requires Parse(content).Some?
    requires IsLeftmostVersionMatch(content, i)
    ensures Parse(content).value.version == VersionCapture(content, i)
  {
    var m := FindVersion(content, 0);
    assert m.Some? && m.value == i;
    StripStripped(VersionCapture(content, i));
  }
}

=== FILE: scenarios.dfy ===
/**
 * The check on a typical index stanza, `Version: <v>` on one line and
 * `SHA256: <h>` on the next, run through the situations a periodic run meets:
 * the first run, an unchanged digest, a changed digest, a failed fetch.
 */
module Scenarios {
  import opened Wrappers
  import opened Text
  import opened PackageIndex
  import opened VersionStore
  import opened Checker

  /** An index stanza holding a version field and a digest field. */
  function Stanza(v: string, h: string): string {
    "Version: " + v + "\n" + "SHA256: " + h
  }

  /** A version token that cannot contribute to a digest match (it holds no `S`). */
  predicate PlainVersion(v: string) {
    v != [] && NoSpace(v) && 'S' !in v
  }

  predicate WellFormedDigest(h: string) {
    |h| == HashLength && AllLowerHex(h)
  }

  lemma StanzaLayout(v: string, h: string)
    ensures var s, n := Stanza(v, h), |v|;
      |s| == n + 18 + |h| && s[..8] == VersionLabel && s[8] == ' ' && s[9..9 + n] == v
      && s[9 + n] == '\n' && s[10 + n..17 + n] == ShaLabel && s[17 + n] == ' ' && s[18 + n..] == h
  {
  }

  /** No position before the digest field can start a digest match. */
  lemma NoEarlierDigest(v: string, h: string)
    requires PlainVersion(v)
    ensures forall k: nat :: k < 10 + |v| ==> !ShaMatchAt(Stanza(v, h), k)
  {
    var s, n := Stanza(v, h), |v|;
    StanzaLayout(v, h);
    forall k: nat | k < 10 + n ensures !ShaMatchAt(s, k) {
      if k < 8 {
        assert s[..8][k] == s[k];
      } else if 9 <= k < 9 + n {
        assert s[9..9 + n][k - 9] == s[k];
      }
      assert s[k] != 'S';
      if k + |ShaLabel| <= |s| {
        assert s[k..k + |ShaLabel|][0] == s[k];
      }
    }
  }

  /** The digest field is the leftmost digest match, and its group is the digest. */
  lemma StanzaDigest(v: string, h: string)
    requires PlainVersion(v) && WellFormedDigest(h)
    ensures IsLeftmostShaMatch(Stanza(v, h), 10 + |v|) && ShaCapture(Stanza(v, h), 10 + |v|) == h
  {
    var s, n := Stanza(v, h), |v|;
    StanzaLayout(v, h);
    assert s[17 + n..18 + n] == [' '];
    assert s[18 + n..18 + n + HashLength] == h;
    assert ShaRegexMatch(s, 10 + n, 18 + n);
    ShaScanIsRegex(s, 10 + n, 18 + n);
    NoEarlierDigest(v, h);
  }

  /** The version field is the leftmost version match, and its group is the version. */
  lemma StanzaVersion(v: string, h: string)
    requires PlainVersion(v)
    ensures IsLeftmostVersionMatch(Stanza(v, h), 0) && VersionCapture(Stanza(v, h), 0) == v
  {
    var s, n := Stanza(v, h), |v|;
    StanzaLayout(v, h);
    assert s[0..8] == s[..8] && s[8..9] == [' '];
    assert VersionRegexMatch(s, 0, 9, 9 + n);
    VersionScanIsRegex(s, 0, 9, 9 + n);
  }

  /** The stanza parses to its own two fields. */
  lemma ParseStanza(v: string, h: string)
    requires PlainVersion(v) && WellFormedDigest(h)
    ensures Parse(Stanza(v, h)) == Some(PackageInfo(v, h))
  {
    var s := Stanza(v, h);
    StanzaDigest(v, h);
    ParseTakesLeftmostSha(s, 10 + |v|);
    StanzaVersion(v, h);
    ParseTakesLeftmostVersion(s, 0);
  }

  /** An index with a version but no digest field yields no record. */
  lemma VersionAloneIsNoRecord(v: string)
    requires PlainVersion(v)
    ensures Parse("Version: " + v) == None
  {
    var s := "Version: " + v;
    forall k: nat | k < |s| ensures s[k] != 'S' {
      if 9 <= k {
        assert s[k] == v[k - 9];
      }
    }
    forall k: nat ensures !ShaMatchAt(s, k) {
      if k < |s| {
        assert s[k] != 'S';
      }
    }
  }

  /**
   * First run: with no version file the stanza's record is reported, written
   * as `v:h`, and the run exits 0 printing that line.
   */
  lemma FirstRun(v: string, h: string, readable: bool)
    requires PlainVersion(v) && WellFormedDigest(h)
    ensures var r := Check(None, Some(Stanza(v, h)), readable, true);
      r == CheckResult(Some(PackageInfo(v, h)), Some(Serialize(PackageInfo(v, h))))
      && Exit(Finished(r.update)) == ExitStatus(ExitSuccess, Serialize(PackageInfo(v, h)) + "\n")
  {
    ParseStanza(v, h);
  }

  /**
   * Unchanged digest: a file `old:h` and a stanza with a new version but the
   * same digest give no update, exit 1, and an untouched file.
   */
  lemma UnchangedDigest(oldVersion: string, v: string, h: string, writable: bool)
    requires PlainVersion(oldVersion) && PlainVersion(v) && WellFormedDigest(h) && Delimiter !in oldVersion
    ensures var file := Some(Serialize(PackageInfo(oldVersion, h)));
      var r := Check(file, Some(Stanza(v, h)), true, writable);
      r == CheckResult(None, file) && Exit(Finished(r.update)).code == ExitNoUpdate
  {
    ParseStanza(v, h);
    NoSpaceIsStripped(oldVersion);
    SameDigestIsNoUpdate(oldVersion, Some(Stanza(v, h)), writable);
  }

  /**
   * Changed digest: a file `old:g` and a stanza with digest `h != g` give the
   * stanza's record, the file rewritten to `v:h`, and exit 0.
   */
  lemma ChangedDigest(oldVersion: string, g: string, v: string, h: string)
    requires PlainVersion(oldVersion) && WellFormedDigest(g) && Delimiter !in oldVersion
    requires PlainVersion(v) && WellFormedDigest(h) && g != h
    ensures var r := Check(Some(Serialize(PackageInfo(oldVersion, g))), Some(Stanza(v, h)), true, true);
      r == CheckResult(Some(PackageInfo(v, h)), Some(Serialize(PackageInfo(v, h))))
      && Exit(Finished(r.update)).code == ExitSuccess
  {
    ParseStanza(v, h);
    NoSpaceIsStripped(oldVersion);
    HexIsNotSpace(g);
    NoSpaceIsStripped(g);
    NewDigestIsUpdate(PackageInfo(oldVersion, g), Some(Stanza(v, h)), true);
  }

  /** A failed fetch is no update: exit 1 and the file untouched, whatever it holds. */
  lemma FetchFailure(file: Option<string>, readable: bool, writable: bool)
    ensures var r := Check(file, None, readable, writable);
      r == CheckResult(None, file) && Exit(Finished(r.update)).code == ExitNoUpdate
  {
  }
}

=== FILE: text.dfy ===
/**
 * Character classes and the string operations the checker borrows from the host
 * language: whitespace stripping and the position of the first colon.
 *
 * Whitespace is what the host language's `str.isspace()` accepts, which is
 * also what its `\s` (a str pattern without `re.ASCII`) and its `strip()` use: the ASCII characters
 * tab, line feed, vertical tab, form feed, carriage return, the four
 * separators U+001C to U+001F and space, and the Unicode whitespace U+0085,
 * U+00A0, U+1680, U+2000 to U+200A, U+2028, U+2029, U+202F, U+205F, U+3000.
 */
module Text {

  predicate IsSpace(c: char) {
    ('\t' <= c <= '\r') || ('\U{1C}' <= c <= ' ') || c == '\U{85}' || c == '\U{A0}' || c == '\U{1680}'
    || ('\U{2000}' <= c <= '\U{200A}') || c == '\U{2028}' || c == '\U{2029}' || c == '\U{202F}'
    || c == '\U{205F}' || c == '\U{3000}'
  }

  /** The class `[a-f0-9]`: lower-case hexadecimal digits only. */
  predicate IsLowerHex(c: char) {
    ('0' <= c <= '9') || ('a' <= c <= 'f')
  }

  predicate AllSpace(s: string) {
    forall i :: 0 <= i < |s| ==> IsSpace(s[i])
  }

  predicate NoSpace(s: string) {
    forall i :: 0 <= i < |s| ==> !IsSpace(s[i])
  }

  predicate AllLowerHex(s: string) {
    forall i :: 0 <= i < |s| ==> IsLowerHex(s[i])
  }

  /** No leading and no trailing whitespace. */
  predicate IsStripped(s: string) {
    s == [] || (!IsSpace(s[0]) && !IsSpace(s[|s| - 1]))
  }

  lemma HexIsNotSpace(s: string)
    requires AllLowerHex(s)
    ensures NoSpace(s) && ':' !in s
  {
    forall i | 0 <= i < |s| ensures !IsSpace(s[i]) && s[i] != ':' {
      assert IsLowerHex(s[i]);
    }
  }

  /** The first non-whitespace position at or after `j` (or the end of `s`). */
  function SkipSpace(s: string, j: nat): (k: nat)
    requires j <= |s|
    ensures j <= k <= |s| && AllSpace(s[j..k])
    ensures k == |s| || !IsSpace(s[k])
    decreases |s| - j
  {
    if j < |s| && IsSpace(s[j]) then
      var k := SkipSpace(s, j + 1);
      assert s[j..k] == [s[j]] + s[j + 1..k];
      k
    else
      j
  }

  /** The start of the whitespace run that ends `s[lo..j]`. */
  function TrimEnd(s: string, lo: nat, j: nat): (k: nat)
    requires lo <= j <= |s|
    ensures lo <= k <= j && AllSpace(s[k..j])
    ensures k == lo || !IsSpace(s[k - 1])
    decreases j
  {
    if lo < j && IsSpace(s[j - 1]) then
      var k' := TrimEnd(s, lo, j - 1);
      assert lo <= k' <= j - 1;
      assert s[k'..j] == s[k'..j - 1] + [s[j - 1]];
      k'
    else
      j
  }

  /** `str.strip()`: the slice of `s` between its leading and its trailing whitespace. */
  function Strip(s: string): (r: string)
    ensures IsStripped(r) && |r| <= |s|
    ensures r == [] <==> AllSpace(s)
  {
    var a := SkipSpace(s, 0);
    var b := TrimEnd(s, a, |s|);
    assert a == b ==> forall x :: 0 <= x < a ==> s[0..a][x] == s[x];
    assert a < b ==> !IsSpace(s[a]);
    s[a..b]
  }

  /**
   * `Strip` is characterised by its result: whenever `s` is a stripped string
   * with whitespace-only margins on both sides, `Strip` gives that string.
   */
  lemma StripUnique(s: string, pre: string, core: string, post: string)
    requires s == pre + core + post && AllSpace(pre) && AllSpace(post) && IsStripped(core)
    ensures Strip(s) == core
  {
    var a := SkipSpace(s, 0);
    var b := TrimEnd(s, a, |s|);
    assert forall x :: 0 <= x < |pre| ==> s[x] == pre[x];
    assert forall x :: |pre| + |core| <= x < |s| ==> s[x] == post[x - |pre| - |core|];
    forall x | 0 <= x < a ensures IsSpace(s[x]) {
      assert s[0..a][x] == s[x];
    }
    forall x | b <= x < |s| ensures IsSpace(s[x]) {
      assert s[b..|s|][x - b] == s[x];
    }
    if core == [] {
      assert a == |s|;
      assert b == a;
    } else {
      assert s[|pre|] == core[0];
      assert s[|pre| + |core| - 1] == core[|core| - 1];
      assert a == |pre|;
      assert b == |pre| + |core|;
      assert s[a..b] == core;
    }
  }

  /** Stripping a string that has no surrounding whitespace changes nothing. */
  lemma StripStripped(s: string)
    requires IsStripped(s)
    ensures Strip(s) == s
  {
    StripUnique(s, [], s, []);
  }

  lemma AllSpaceAppend(x: string, y: string)
    requires AllSpace(x) && AllSpace(y)
    ensures AllSpace(x + y)
  {
    assert forall i :: |x| <= i < |x + y| ==> (x + y)[i] == y[i - |x|];
  }

  /** Every string is its stripped form between two whitespace-only margins. */
  lemma StripSplit(s: string) returns (left: string, right: string)
    ensures s == left + Strip(s) + right && AllSpace(left) && AllSpace(right)
  {
    var a := SkipSpace(s, 0);
    var b := TrimEnd(s, a, |s|);
    left, right := s[..a], s[b..];
    assert left == s[0..a] && right == s[b..|s|];
    assert s == left + s[a..b] + right;
  }

  lemma RegroupMargins(pre: string, left: string, core: string, right: string, post: string)
    ensures pre + (left + core + right) + post == (pre + left) + core + (right + post)
  {
  }

  /** Whitespace margins added around a string vanish under `Strip`. */
  lemma StripMargins(pre: string, s: string, post: string)
    requires AllSpace(pre) && AllSpace(post)
    ensures Strip(pre + s + post) == Strip(s)
  {
    var left, right := StripSplit(s);
    AllSpaceAppend(pre, left);
    AllSpaceAppend(right, post);
    RegroupMargins(pre, left, Strip(s), right, post);
    StripUnique(pre + s + post, pre + left, Strip(s), right + post);
  }

  /** `Strip` never introduces a character. */
  lemma StripAddsNothing(s: string, c: char)
    requires c !in s
    ensures c !in Strip(s)
  {
    var a := SkipSpace(s, 0);
    var b := TrimEnd(s, a, |s|);
    assert forall i :: 0 <= i < b - a ==> s[a..b][i] == s[a + i];
  }

  /** `Strip` never removes a non-whitespace character. */
  lemma StripKeeps(s: string, i: nat)
    requires i < |s| && !IsSpace(s[i])
    ensures s[i] in Strip(s)
  {
    var a := SkipSpace(s, 0);
    var b := TrimEnd(s, a, |s|);
    assert forall x :: 0 <= x < a ==> s[0..a][x] == s[x];
    assert forall x :: b <= x < |s| ==> s[b..|s|][x - b] == s[x];
    assert a <= i < b;
    assert s[a..b][i - a] == s[i];
  }

  /** Index of the first occurrence of `c`, the split point of `split(c, 1)`. */
  function IndexOf(s: string, c: char): (k: nat)
    requires c in s
    ensures k < |s| && s[k] == c && c !in s[..k]
  {
    if s[0] == c then 0 else 1 + IndexOf(s[1..], c)
  }

  /** The first occurrence is determined by its two defining facts. */
  lemma IndexOfIsFirst(s: string, c: char, k: nat)
    requires k < |s| && s[k] == c && c !in s[..k]
    ensures IndexOf(s, c) == k
  {
    var j := IndexOf(s, c);
    assert forall x :: 0 <= x < k ==> s[..k][x] == s[x];
    assert forall x :: 0 <= x < j ==> s[..j][x] == s[x];
  }

  lemma NoSpaceIsStripped(s: string)
    requires NoSpace(s)
    ensures IsStripped(s)
  {
    if s != [] {
      assert !IsSpace(s[0]) && !IsSpace(s[|s| - 1]);
    }
  }
}

=== FILE: version_checker.dfy ===
/**
 * The update check of `WARPVersionChecker` and the exit status of `main`.
 *
 * The outside world enters as parameters: `body` is the text of the package
 * index (`None` when the request failed, timed out or the body was not valid
 * UTF-8), `readable` says whether an existing version file could be read,
 * and `writable` whether writing it succeeds. The version file is the
 * checker's field `stored`: its content, or `None` when it does not exist.
 */
module Checker {
  import opened Wrappers
  import opened Text
  import opened PackageIndex
  import opened VersionStore

  const ExitSuccess: int := 0
  const ExitNoUpdate: int := 1
  const ExitFatalError: int := 3

  /** `fetch_latest_package_info`: every transport failure becomes `None`, otherwise the body is parsed. */
  function FetchLatest(body: Option<string>): (r: Option<PackageInfo>)
    ensures body.None? ==> r.None?
    ensures body.Some? ==> (r.None? <==> !HasShaMatch(body.value))
    ensures r.Some? ==> |r.value.sha256| == HashLength && AllLowerHex(r.value.sha256)
    ensures r.Some? ==> r.value.version != [] && NoSpace(r.value.version)
  {
    match body
    case None => None
    case Some(text) => Parse(text)
  }

  /** `load_saved_info`: no record when the file is missing or cannot be read, otherwise `Load` of its content. */
  function LoadSaved(file: Option<string>, readable: bool): (r: Option<PackageInfo>)
    ensures !(file.Some? && readable) ==> r.None?
    ensures file.Some? && readable ==> (r.None? <==> Delimiter !in Strip(file.value))
    ensures r.Some? ==> IsStripped(r.value.version) && IsStripped(r.value.sha256) && Delimiter !in r.value.version
  {
    if file.Some? && readable then Load(file) else None
  }

  /** What one check reports, and the version file after it. */
  datatype CheckResult = CheckResult(update: Option<PackageInfo>, file: Option<string>)

  /**
   * One run of `check_for_update` from the file's content before it.
   * An update is reported exactly when the index yields a record and there is
   * no loadable saved record or its digest differs (versions are never
   * compared); the report is always the fetched record; the file changes only
   * when an update is reported and the write succeeds, and then holds exactly
   * the serialised update.
   */
  function Check(file: Option<string>, body: Option<string>, readable: bool, writable: bool): (r: CheckResult)
    ensures r.update.Some? ==> r.update == FetchLatest(body)
    ensures r.update.Some? <==>
      (FetchLatest(body).Some? && (LoadSaved(file, readable).None?
        || LoadSaved(file, readable).value.sha256 != FetchLatest(body).value.sha256))
    ensures r.file == if r.update.Some? && writable then Some(Serialize(r.update.value)) else file
  {
    var latest := FetchLatest(body);
    if latest.None? then
      CheckResult(None, file)
    else
      var saved := LoadSaved(file, readable);
      if saved.None? || latest.value.sha256 != saved.value.sha256 then
        CheckResult(latest, if writable then Some(Serialize(latest.value)) else file)
      else
        CheckResult(None, file)
  }

  class VersionChecker {
    /** The content of the version file; `None` when the file does not exist. */
    var stored: Option<string>

    constructor(file: Option<string>)
      ensures stored == file
    {
      stored := file;
    }

    /** `save_info`: overwrites the whole file with the serialised record when the write succeeds. */
    method SaveInfo(info: PackageInfo, writable: bool) returns (saved: bool)
      modifies this
      ensures saved == writable
      ensures stored == if writable then Some(Serialize(info)) else old(stored)
    {
      if writable {
        stored := Some(Serialize(info));
        saved := true;
      } else {
        saved := false;
      }
    }

    /**
     * `check_for_update`: fetch, load, compare digests, save. On every
     * no-update path the file is left untouched; the outcome of the save
     * does not change what is reported.
     */
    method CheckForUpdate(body: Option<string>, readable: bool, writable: bool) returns (update: Option<PackageInfo>)
      modifies this
      ensures CheckResult(update, stored) == Check(old(stored), body, readable, writable)
      ensures FetchLatest(body).None? ==> update.None? && unchanged(this)
      ensures update.None? ==> unchanged(this)
    {
      var latest := FetchLatest(body);
      if latest.None? {
        return None;
      }
      var saved := LoadSaved(stored, readable);
      if saved.None? {
        var _ := SaveInfo(latest.value, writable);
        return latest;
      }
      if latest.value.sha256 != saved.value.sha256 {
        var _ := SaveInfo(latest.value, writable);
        return latest;
      }
      return None;
    }
  }

  /** How `main` ended: the check returned (an update or none), or an exception escaped it. */
  datatype Outcome = Finished(update: Option<PackageInfo>) | Crashed

  /** The process's exit code and what it wrote to standard output. */
  datatype ExitStatus = ExitStatus(code: int, stdout: string)

  /**
   * `main`'s mapping: exit 0 with the line `version:sha256` for an update,
   * exit 1 and no output when there is none, exit 3 when the check crashed.
   */
  function Exit(outcome: Outcome): (e: ExitStatus)
    ensures e.code == ExitSuccess <==> outcome.Finished? && outcome.update.Some?
    ensures e.code == ExitNoUpdate <==> outcome.Finished? && outcome.update.None?
    ensures e.code == ExitFatalError <==> outcome.Crashed?
    ensures e.stdout != [] <==> e.code == ExitSuccess
    ensures e.code == ExitSuccess ==> e.stdout == Serialize(outcome.update.value) + "\n"
  {
    match outcome
    case Finished(Some(info)) => ExitStatus(ExitSuccess, Serialize(info) + "\n")
    case Finished(None) => ExitStatus(ExitNoUpdate, "")
    case Crashed => ExitStatus(ExitFatalError, "")
  }

  /**
   * `main` run once against the version file's content: a checker over that
   * file runs the check, and the outcome becomes the exit status. Nothing in
   * the modelled check raises, so the status is 0 or 1 here.
   */
  method RunMain(file: Option<string>, body: Option<string>, readable: bool, writable: bool)
    returns (status: ExitStatus, fileAfter: Option<string>)
    ensures status == Exit(Finished(Check(file, body, readable, writable).update))
    ensures fileAfter == Check(file, body, readable, writable).file
    ensures status.code == ExitSuccess || status.code == ExitNoUpdate
  {
    var checker := new VersionChecker(file);
    var update := checker.CheckForUpdate(body, readable, writable);
    status := Exit(Finished(update));
    fileAfter := checker.stored;
  }

  // ---------------------------------------------------------------------------
  // Properties across calls
  // ---------------------------------------------------------------------------

  /** A record parsed from an index has stripped fields, and a colon-free one survives the version file. */
  lemma ParsedRecordRoundTrip(text: string)
    requires Parse(text).Some? && Delimiter !in Parse(text).value.version
    ensures Load(Some(Serialize(Parse(text).value))) == Parse(text)
  {
    var info := Parse(text).value;
    NoSpaceIsStripped(info.version);
    HexIsNotSpace(info.sha256);
    NoSpaceIsStripped(info.sha256);
    RoundTrip(info);
  }

  /**
   * Idempotence: once a check has reported an update and saved it, the next
   * check against the same index reports nothing and leaves the file alone,
   * provided the version has no colon.
   */
  lemma SecondCheckIsQuiet(file: Option<string>, body: Option<string>, readable: bool, writable: bool)
    requires FetchLatest(body).Some? && Delimiter !in FetchLatest(body).value.version
    requires Check(file, body, readable, true).update.Some?
    ensures var first := Check(file, body, readable, true);
      Check(first.file, body, true, writable) == CheckResult(None, first.file)
  {
    ParsedRecordRoundTrip(body.value);
  }

  /**
   * With an epoch in the version (`1:2.3-1`) idempotence fails: the saved
   * record loads back with a different digest, so every later check against
   * the same index reports the same update again and rewrites the same file.
   */
  lemma EpochVersionReannounced(file: Option<string>, body: Option<string>, readable: bool)
    requires FetchLatest(body).Some? && Delimiter in FetchLatest(body).value.version
    requires Check(file, body, readable, true).update.Some?
    ensures var first := Check(file, body, readable, true);
      Check(first.file, body, true, true) == first
  {
    var info := FetchLatest(body).value;
    NoSpaceIsStripped(info.version);
    HexIsNotSpace(info.sha256);
    NoSpaceIsStripped(info.sha256);
    EpochBreaksRoundTrip(info);
  }

  /**
   * Only the digest decides: a saved record with the same digest silences the
   * check whatever the two versions are, and the file is not rewritten.
   */
  lemma SameDigestIsNoUpdate(savedVersion: string, body: Option<string>, writable: bool)
    requires FetchLatest(body).Some?
    requires Delimiter !in savedVersion && IsStripped(savedVersion)
    ensures var file := Some(Serialize(PackageInfo(savedVersion, FetchLatest(body).value.sha256)));
      Check(file, body, true, writable) == CheckResult(None, file)
  {
    var sha256 := FetchLatest(body).value.sha256;
    HexIsNotSpace(sha256);
    NoSpaceIsStripped(sha256);
    RoundTrip(PackageInfo(savedVersion, sha256));
  }

  /** A saved record with a different digest makes the check report the fetched record and overwrite the file with it. */
  lemma NewDigestIsUpdate(saved: PackageInfo, body: Option<string>, writable: bool)
    requires FetchLatest(body).Some? && FetchLatest(body).value.sha256 != saved.sha256
    requires Delimiter !in saved.version && IsStripped(saved.version) && IsStripped(saved.sha256)
    ensures var latest := FetchLatest(body).value;
      Check(Some(Serialize(saved)), body, true, writable)
        == CheckResult(Some(latest), if writable then Some(Serialize(latest)) else Some(Serialize(saved)))
  {
    RoundTrip(saved);
  }

  /** Whether the save succeeds never changes what a check reports. */
  lemma ReportIgnoresSaveOutcome(file: Option<string>, body: Option<string>, readable: bool)
    ensures Check(file, body, readable, true).update == Check(file, body, readable, false).update
  {
  }

  /** The line printed for an update is the new content of the version file, followed by a newline. */
  lemma StdoutIsSavedLine(file: Option<string>, body: Option<string>, readable: bool)
    requires Check(file, body, readable, true).update.Some?
    ensures var r := Check(file, body, readable, true);
      r.file.Some? && Exit(Finished(r.update)).stdout == r.file.value + "\n"
  {
  }
}

=== FILE: version_store.dfy ===
/**
 * The persisted record: the single line `<version>:<sha256>` that
 * `save_info` writes to the version file and `load_saved_info` reads back.
 * The file itself is modelled as its content, `None` when it does not exist.
 */
module VersionStore {
  import opened Wrappers
  import opened Text
  import opened PackageIndex

  const Delimiter: char := ':'

  /**
   * The content `save_info` writes: the version, a colon, the digest, no
   * newline. When the version holds no colon, the written colon is the first
   * one, so `Load` splits the content exactly where it was joined.
   */
  function Serialize(info: PackageInfo): (r: string)
    ensures |r| == |info.version| + 1 + |info.sha256|
    ensures r[..|info.version|] == info.version && r[|info.version|] == Delimiter
    ensures r[|info.version| + 1..] == info.sha256
    ensures Delimiter !in info.version ==> IndexOf(r, Delimiter) == |info.version|
  {
    var r := info.version + [Delimiter] + info.sha256;
    assert r[..|info.version|] == info.version;
    if Delimiter !in info.version then
      IndexOfIsFirst(r, Delimiter, |info.version|);
      r
    else
      r
  }

  /**
   * `load_saved_info` on the file's content: the content is stripped, must
   * hold a colon, and is split at its first colon into two stripped fields.
   * No record comes back for a missing file or a content without a colon.
   */
  function Load(file: Option<string>): (r: Option<PackageInfo>)
    ensures file.None? ==> r.None?
    ensures file.Some? ==> (r.None? <==> Delimiter !in Strip(file.value))
    ensures r.Some? ==> IsStripped(r.value.version) && IsStripped(r.value.sha256)
    ensures r.Some? ==> Delimiter !in r.value.version
  {
    match file
    case None => None
    case Some(raw) =>
      var content := Strip(raw);
      if Delimiter !in content then
        None
      else
        var k := IndexOf(content, Delimiter);
        StripAddsNothing(content[..k], Delimiter);
        Some(PackageInfo(Strip(content[..k]), Strip(content[k + 1..])))
  }

  /** A stripped content whose first colon is at `k` loads as the two stripped halves around `k`. */
  lemma LoadSplitsAt(content: string, k: nat)
    requires IsStripped(content)
    requires k < |content| && content[k] == Delimiter && Delimiter !in content[..k]
    ensures Load(Some(content)) == Some(PackageInfo(Strip(content[..k]), Strip(content[k + 1..])))
  {
    StripStripped(content);
    IndexOfIsFirst(content, Delimiter, k);
  }

  lemma SerializedStripped(info: PackageInfo)
    requires IsStripped(info.version) && IsStripped(info.sha256)
    ensures IsStripped(Serialize(info))
  {
    var t := Serialize(info);
    assert t[0] == if info.version == [] then Delimiter else info.version[0];
    assert t[|t| - 1] == if info.sha256 == [] then Delimiter else info.sha256[|info.sha256| - 1];
  }

  /**
   * Saving a record and loading it back gives the same record, provided the
   * version holds no colon and neither field has surrounding whitespace.
   */
  lemma RoundTrip(info: PackageInfo)
    requires Delimiter !in info.version
    requires IsStripped(info.version) && IsStripped(info.sha256)
    ensures Load(Some(Serialize(info))) == Some(info)
  {
    var t := Serialize(info);
    var v := info.version;
    SerializedStripped(info);
    assert t[..|v|] == v && t[|v|] == Delimiter && t[|v| + 1..] == info.sha256;
    LoadSplitsAt(t, |v|);
    StripStripped(v);
    StripStripped(info.sha256);
  }

  /**
   * A version with an epoch (`1:2.3-1`) is split at its own first colon: what
   * comes back as the version is the part before it, and the rest of the
   * version moves in front of the digest.
   */
  lemma EpochSplitsVersion(info: PackageInfo)
    requires Delimiter in info.version
    requires IsStripped(info.version) && IsStripped(info.sha256)
    ensures Load(Some(Serialize(info))) == Some(PackageInfo(
              Strip(info.version[..IndexOf(info.version, Delimiter)]),
              Strip(info.version[IndexOf(info.version, Delimiter) + 1..] + [Delimiter] + info.sha256)))
  {
    var t := Serialize(info);
    var v := info.version;
    var k := IndexOf(v, Delimiter);
    SerializedStripped(info);
    assert t[..k] == v[..k] && t[k] == Delimiter;
    assert t[k + 1..] == v[k + 1..] + [Delimiter] + info.sha256;
    LoadSplitsAt(t, k);
  }

  /**
   * So such a record does not survive the version file: the loaded version is
   * shorter, and the loaded digest holds a colon, unlike any hex digest.
   */
  lemma EpochBreaksRoundTrip(info: PackageInfo)
    requires Delimiter in info.version
    requires IsStripped(info.version) && IsStripped(info.sha256)
    ensures Load(Some(Serialize(info))).Some?
    ensures Load(Some(Serialize(info))) != Some(info)
    ensures Delimiter in Load(Some(Serialize(info))).value.sha256
    ensures AllLowerHex(info.sha256) ==> Load(Some(Serialize(info))).value.sha256 != info.sha256
  {
    EpochSplitsVersion(info);
    EpochFields(info.version, info.sha256);
  }

  /**
   * The two fields `EpochSplitsVersion` loads: a shorter version, and a digest
   * holding a colon. Both facts serve `EpochBreaksRoundTrip`, which states them
   * about the loaded record.
   */
  lemma EpochFields(v: string, h: string)
    requires Delimiter in v
    ensures |Strip(v[..IndexOf(v, Delimiter)])| < |v|
    ensures Delimiter in Strip(v[IndexOf(v, Delimiter) + 1..] + [Delimiter] + h)
    ensures AllLowerHex(h) ==> Strip(v[IndexOf(v, Delimiter) + 1..] + [Delimiter] + h) != h
  {
    var k := IndexOf(v, Delimiter);
    var rest := v[k + 1..] + [Delimiter] + h;
    assert rest[|v| - k - 1] == Delimiter;
    StripKeeps(rest, |v| - k - 1);
    if AllLowerHex(h) {
      HexIsNotSpace(h);
    }
  }

  /** Whitespace around the record in the file, such as a final newline, does not change what is loaded. */
  lemma LoadIgnoresMargins(pre: string, content: string, post: string)
    requires AllSpace(pre) && AllSpace(post)
    ensures Load(Some(pre + content + post)) == Load(Some(content))
  {
    StripMargins(pre, content, post);
  }
}

=== FILE: wrappers.dfy ===
/** The optional value the checker returns where the program returns a record or None. */
module Wrappers {

  datatype Option<+T> = None | Some(value: T)

}
